=== FILE: README.md ===
# RGBCatcher: a Dafny model of the catch game's per-tick rules

RGBCatcher is a canvas game: a basket slides along the bottom of the
canvas and catches coloured blocks falling from the top. Catching a block
of the basket's colour scores its strength, catching any other colour costs
that much health, and letting a block of the basket's colour fall past
costs health too. This project models the game logic in
`js/pewtincatcher.js` as immutable records and pure step functions:

- `Screen` (`screen.dfy`): the canvas size, read by every step that uses it.
- `Dice` (`dice.dfy`): `rand(min, max)` and `Math.round`. A value of
  `Math.random()` is a real parameter in [0, 1) supplied by the caller.
- `Colors` (`colors.dfy`): the three-colour palette, the single colour
  draw used for blocks, and the basket's reroll loop run over a finite
  supply of draws.
- `Countable` (`countable.dfy`): the eased display value behind `Health`
  and `Score`, their resets and the health-bar colour bands.
- `Baskets` (`basket.dfy`): the basket's reset, keyboard move with
  clamping, and `Movable.update`.
- `Blocks` (`block.dfy`): block construction from an attribute template
  (lazy position and colour), the constant fall, and `Movable.update`.
- `Collision` (`collision.dfy`): `checkCollision`, and `updateBlocks` as a
  fold over the block sequence that threads the health, score and
  on-screen counters.
- `Catcher` (`catcher.dfy`): the session state, `addBlock`, `resetLevel`,
  `resetGame`, the spawn-timer branch of `gameLoop`, and a whole playing
  tick. It also holds the session invariant: the on-screen count equals
  the number of live blocks, and the spawned count equals the number of
  blocks kept and stays within the level quota.

Positions and speeds are exact reals (the basket speed is 1.1). Block sizes,
canvas sizes, times in milliseconds and counter values are integers. The
canvas size is a parameter of every step that reads it.

Two behaviours of the code are worth stating up front:
- `resetLevel` never increments `level`, although the comments at
  js/pewtincatcher.js:29 and :31 describe the level going up. The model
  follows the code: the level number stays put and the quota stays at 4
  blocks.
- The colour draw `Math.round(rand(0, 2))` picks green twice as often as
  red or blue. `Colors.ColorAt` states the exact ranges of draws.

## Model

| member | source | states |
|---|---|---|
| Dice.Rand | js/pewtincatcher.js:5-7 | for a draw in [0, 1), the result lies in [min, max), or equals min when the range is empty |
| Dice.Round | js/pewtincatcher.js:393 | `Math.round` gives the unique integer within half of its argument, with halves rounded up |
| Colors.ColorAt | js/pewtincatcher.js:402 | a palette colour: red exactly for draws below 0.25, green for [0.25, 0.75), blue from 0.75 |
| Colors.Reroll | js/pewtincatcher.js:342-343 | the loop exits with a colour other than the old one; it does not run when the colours already differ; it keeps going exactly when every draw repeats the old colour; the exit colour is the first drawn colour that differs from the old one |
| Colors.RerollReaches | js/pewtincatcher.js:342-343 | every colour other than the old one is a possible exit of the reroll loop |
| Countable.NewCounter | js/pewtincatcher.js:411-419 | a fresh counter is settled (value equals target) and has a positive step |
| Countable.Change | js/pewtincatcher.js:420-422 | only the target moves, by exactly the amount; value and step are kept |
| Countable.ChangesCompose | js/pewtincatcher.js:420-422 | two changes equal one change by their sum |
| Countable.Move | js/pewtincatcher.js:423-431 | with a positive step the value never passes the target; it snaps onto the target when closer than one step, otherwise the distance shrinks by exactly one step |
| Countable.MoveNDist | js/pewtincatcher.js:423-431 | after n steps the distance is the original distance less n steps, floored at 0, and the value stays between start and target |
| Countable.Converges | js/pewtincatcher.js:423-431 | the value reaches the target after n steps iff n steps cover the distance, so after exactly ceil(distance / step) steps |
| Countable.SettledIsFixed | js/pewtincatcher.js:425-426 | a counter already on its target is unchanged by a step |
| Countable.HealthReset | js/pewtincatcher.js:448-452 | health is settled at 100 and keeps its step |
| Countable.ScoreReset | js/pewtincatcher.js:488-490 | score is settled at 0 and keeps its step |
| Countable.HealthBand | js/pewtincatcher.js:459-464 | the bands are safe from 50, warning on [25, 50), danger on [0, 25) and none below 0 |
| Countable.BandMonotone | js/pewtincatcher.js:459-464 | less health never shows a safer band |
| Baskets.NewBasket | js/pewtincatcher.js:51-57 | the basket starts alive with the same current and previous colour (red), and positive size and speed |
| Baskets.Reset | js/pewtincatcher.js:336-347 | the basket is centred on the canvas, stands on its bottom edge and lies within it when it fits; a colour equal to the previous one is replaced by a different one; afterwards the previous colour equals the current one; size, speed and liveness are kept |
| Baskets.Move | js/pewtincatcher.js:348-364 | when the basket fits, x ends in [0, canvasWidth - width] and equals the key-shifted position clamped to that range; with no key held an in-range basket is unchanged; only x changes |
| Baskets.Update | js/pewtincatcher.js:318-323 | a dead basket is unchanged; a live basket is moved by the held keys (with the clamp); a live one that fits ends on the canvas; colour, liveness, width and height are kept |
| Baskets.StaysInCanvas | js/pewtincatcher.js:348-364 | over any sequence of key states, a basket that fits and starts on the canvas stays on it |
| Blocks.SpawnX | js/pewtincatcher.js:393 | the spawn column is an integer in [0, canvasWidth - width] when the block fits |
| Blocks.SpawnXReaches | js/pewtincatcher.js:393 | every integer column in [0, canvasWidth - width] is a possible spawn column |
| Blocks.InitPosition | js/pewtincatcher.js:387-397 | a template with either coordinate set is untouched; otherwise x becomes a spawn column and y becomes minus the height, and nothing else changes |
| Blocks.InitColor | js/pewtincatcher.js:398-403 | a set colour is kept; an unset one becomes the drawn palette colour |
| Blocks.NewBlock | js/pewtincatcher.js:380-385 | a block is built exactly when both coordinates are set or both unset; it is alive with the given strength and the template's size and speed; an unset position becomes an integer column on the canvas with y at minus the height; an unset colour is drawn |
| Blocks.Move | js/pewtincatcher.js:404-407 | y grows by exactly ySpeed and nothing else changes |
| Blocks.Update | js/pewtincatcher.js:318-323 | a dead block is unchanged; a live block moves |
| Blocks.Falls | js/pewtincatcher.js:404-407 | a live block falls n times ySpeed in n updates with nothing else changed; a dead block never moves |
| Collision.CheckCollision | js/pewtincatcher.js:186-228 | dead blocks and blocks above the basket's line change nothing; a catch kills the block, drops the on-screen count by 1 and moves exactly one of score (same colour, up by strength) or health (other colour, down by strength); a miss never touches the score, charges health once for a same-colour block with strength left and spends that strength, and kills the block exactly when it is below the canvas; a dead block stays dead, the count drops exactly when the block dies, and the targets move by no more than the block's remaining strength |
| Collision.Step | js/pewtincatcher.js:176-182 | a dead block and the counters are left alone; a live block is moved by one fall and then run through the collision check; the count drops exactly when the block dies; the targets move by no more than the block's remaining strength |
| Collision.StepShift | js/pewtincatcher.js:186-228 | a block's update-and-check does the same to the block whatever the counters hold, and moves the counters only by that block's own offsets |
| Collision.UpdateBlocks | js/pewtincatcher.js:175-183 | no block is added or removed; each block ends as its own update-and-check leaves it, whatever the counters held; the counters move by the sum of the blocks' own offsets; no dead block revives or changes; the on-screen count minus the live-block count is unchanged; health and score targets move by no more than the strength the blocks give up |
| Collision.LifetimeEffect | js/pewtincatcher.js:186-228 | over any run of ticks, a block moves health and score targets by at most its strength in total |
| Collision.MissPenalisedOnce | js/pewtincatcher.js:213-220 | a same-colour block first seen missed costs exactly its strength in health, and no later check moves health or score again |
| Collision.SpentBlockInert | js/pewtincatcher.js:213-220 | a dead block, or one whose strength is spent, never changes health or score |
| Collision.DiesOnce | js/pewtincatcher.js:196-227 | over any run, a dead block stays dead and unchanged, and the on-screen count drops by one exactly when a live block ends dead |
| Collision.CatchScenario | js/pewtincatcher.js:196-210 | on a 400 by 300 canvas a red strength-5 block falling into a red basket scores 5; into a blue basket it costs 5 health; either way it dies and leaves the screen count |
| Catcher.SpawnBlock | js/pewtincatcher.js:59-64 | a spawned block is a live 10 by 10 block falling 1 pixel per tick, starting just above the canvas at an integer column on the canvas, with the drawn colour |
| Catcher.AddBlock | js/pewtincatcher.js:157-173 | answers false iff the quota is spawned and no block is on screen; below the quota the blocks, spawned and on-screen counts each grow by exactly one with old blocks kept; at the quota nothing changes; the session invariant is preserved |
| Catcher.ResetLevel | js/pewtincatcher.js:289-297 | the basket is reset, the blocks and both counters are cleared, and level, spawn interval, timer, score and health are kept; at any level from 1 the session invariant holds afterwards |
| Catcher.ResetGame | js/pewtincatcher.js:100-113 | a session at level 1 with settled full health, settled zero score, a 2-second interval, no blocks and the timer started now, satisfying the session invariant from any prior state |
| Catcher.NewGame | js/pewtincatcher.js:91-94 | the initial session has no blocks and a basket whose current and previous colours agree |
| Catcher.SpawnPhase | js/pewtincatcher.js:128-145 | nothing happens before the timer is due; once due the timer restarts at this frame; an incomplete level gets addBlock, so blocks are only ever appended, at most one; a complete level has its interval multiplied by 0.99 and is emptied, with level, score and health kept; the session invariant is preserved |
| Catcher.Tick | js/pewtincatcher.js:115-155 | a tick preserves the session invariant and the level number; the timer restart, the interval shrink, the spawn count and the block list of the spawn branch (one block appended, or the level emptied on completion) carry through the tick, and every block that list holds, the new one included, ends as its update-and-check against the moved basket leaves it; the basket is moved by the keys (after its reset when the level completes) and a live one that fits ends on the canvas; unless the level completes, no block is removed, at most one is added, and every kept block ends as its update-and-check against the moved basket leaves it; the health and score targets move exactly by the blocks' collision offsets, by no more than the blocks' remaining strength plus the new block's |
| Catcher.LevelCompleteScenario | js/pewtincatcher.js:129-143 | at level 1 with four blocks spawned and resolved, the due spawn check shortens the interval to 1.98 seconds, empties the level and keeps the level at 1 |

## Left out

- Drawing: the `draw` methods, the health bar and score text, `info.innerHTML`, and `Health.update`/`Score.update` (js/pewtincatcher.js:324-327, 365-372, 453-475, 491-499). These are canvas and DOM output. Only the band choice of the health bar is modelled.
- Keyboard listeners (js/pewtincatcher.js:79-89). Key state is the `Keys` input of `Baskets.Move`.
- The `setInterval`/`clearInterval` swapping and the title and game-over screens (js/pewtincatcher.js:97, 115-126, 230-287). This is timer plumbing. The loss check at line 119 compares the `Health` object with 1, which is never true. Line 123 schedules `gameOver`, which is not defined. So there is no loss transition to model.
- `Math.random` (js/pewtincatcher.js:5-7) is replaced by draw parameters in [0, 1). Probabilities are not modelled. In particular, the almost-sure termination of the reroll loop is not modelled.
- Baskets.Reset: takes the reroll loop's exit colour as a parameter `pick` that differs from the previous colour, rather than running the loop. `Colors.Reroll` models the loop itself, and `Colors.RerollReaches` shows that every such `pick` is a possible exit.
- The difficulty multipliers on `blockData['ySpeed']` and `basketData['xSpeed']` (js/pewtincatcher.js:135-136). They write named properties on arrays that the constructor's index loop never reads, so they have no effect.
- `resetLevel` replaces the `Health` object with the number 100 (js/pewtincatcher.js:292). From the first level completion on, every `gameLoop` tick therefore throws at `health.update()` (js/pewtincatcher.js:149), before `updateBlocks()` (js/pewtincatcher.js:153), so in the source no block falls or resolves again. The model keeps the health counter unchanged and `Catcher.Tick` keeps playing the next level.
- Floating point: positions and speeds are exact reals, not IEEE doubles. In the source, repeated steps of 1.1 accumulate rounding error, which can flip the `block.x >= basket.x` edge test (js/pewtincatcher.js:196) at its boundary; the model does not reproduce that drift.
- Block strength: `blockData` never sets `strength` (js/pewtincatcher.js:59-64). In the source, a catch therefore turns whichever target it changes into NaN: the score target on a same-colour catch, the health target otherwise (js/pewtincatcher.js:204-209). Worse, `block.strength > 0` (js/pewtincatcher.js:214) is then always false, so a missed block is never penalised and the once-only miss penalty that `Collision.MissPenalisedOnce` proves never runs in the source. The model takes strength as an integer given when the block is built, which is what the miss branch's code evidently expects.
- Blocks.NewBlock: for a template that sets exactly one of the two coordinates, the source still builds a block whose other coordinate is `undefined` (js/pewtincatcher.js:389-390). The model returns `None` there instead of modelling `undefined`. The game never reaches this case, because `blockData` sets neither coordinate.
- Values the source leaves unset until a reset: the basket's position (set by `Basket.reset`, js/pewtincatcher.js:338-339), and `blocksSpawnSec`, `blocksSpawned`, `blocksOnScreen` and `level` (declared without a value at js/pewtincatcher.js:32-36 and assigned only by `resetGame`, js/pewtincatcher.js:105-110). `Baskets.NewBasket` and `Catcher.NewGame` use 0 for each of them; every use comes after `resetGame`, which overwrites them all.
- `Countable.move` is modelled but never called by the game loop, so in the game the displayed values never animate.

=== FILE: basket.dfy ===
/** The player's `Basket`: a `Movable` that slides along the bottom of the
    canvas and changes colour on every reset. */
module Baskets {
  import opened Colors
  import opened Screen

  datatype Basket = Basket(
    x: real, y: real,
    width: real, height: real,
    xSpeed: real,
    color: Color,
    oldColor: Color,   // the colour chosen at the previous reset
    alive: bool)

  /** Held state of the left (key code 37) and right (key code 39) keys. */
  datatype Keys = Keys(left: bool, right: bool)

  /** The basket built from `basketData`: 30 by 10, speed 1.1, red with
      red as its previous colour. Its position is unset until the first
      reset, which overwrites both coordinates; 0 stands in for it. */
  function NewBasket(): (b: Basket)
    ensures b.alive && b.color == b.oldColor == Red
    ensures 0.0 < b.width && 0.0 < b.height && 0.0 < b.xSpeed
  {
    Basket(0.0, 0.0, 30.0, 10.0, 1.1, Red, Red, true)
  }

  /** The horizontal positions at which the basket lies wholly on the
      canvas. */
  predicate InCanvas(b: Basket, c: Canvas) {
    0.0 <= b.x <= c.width as real - b.width
  }

  /** `x` clamped into `[lo, hi]`. */
  function Clamp(x: real, lo: real, hi: real): real
    requires lo <= hi
  {
    if x < lo then lo else if x > hi then hi else x
  }

  /** `Basket.reset()`: recentres the basket, stands it on the bottom edge
      and, when its colour still equals the previous one, rerolls it.
      `pick` is the colour the reroll loop exits with; any colour other
      than the previous one can be that colour (`Colors.RerollReaches`). */
  function Reset(b: Basket, c: Canvas, pick: Color): (r: Basket)
    requires pick != b.oldColor
    ensures r.x + r.width / 2.0 == c.width as real / 2.0
    ensures r.y + r.height == c.height as real
    ensures b.width <= c.width as real ==> InCanvas(r, c)
    ensures b.color == b.oldColor ==> r.color != b.color && r.color == pick
    ensures b.color != b.oldColor ==> r.color == b.color
    ensures r.oldColor == r.color
    ensures r.width == b.width && r.height == b.height
    ensures r.xSpeed == b.xSpeed && r.alive == b.alive
  {
    var color := if b.color == b.oldColor then pick else b.color;
    b.(x := c.width as real / 2.0 - b.width / 2.0,
       y := c.height as real - b.height,
       color := color,
       oldColor := color)
  }

  /** `Basket.move()`: applies the held keys, then pushes the basket back
      inside the left and then the right edge of the canvas. */
  function Move(b: Basket, c: Canvas, keys: Keys): (r: Basket)
    ensures b.width <= c.width as real ==> InCanvas(r, c)
    ensures b.width <= c.width as real ==>
              r.x == Clamp(b.x + Shift(b, keys), 0.0, c.width as real - b.width)
    ensures !keys.left && !keys.right && InCanvas(b, c) ==> r == b
    ensures r == b.(x := r.x)
  {
    var x0 := if keys.left then b.x - b.xSpeed else b.x;
    var x1 := if keys.right then x0 + b.xSpeed else x0;
    var x2 := if x1 < 0.0 then 0.0 else x1;
    var x3 := if x2 + b.width > c.width as real then c.width as real - b.width else x2;
    b.(x := x3)
  }

  /** Net horizontal displacement the held keys ask for. */
  function Shift(b: Basket, keys: Keys): real {
    (if keys.right then b.xSpeed else 0.0) - (if keys.left then b.xSpeed else 0.0)
  }

  /** `Movable.update` for the basket: moves only while alive. */
  function Update(b: Basket, c: Canvas, keys: Keys): (r: Basket)
    ensures !b.alive ==> r == b
    ensures b.alive ==> r == Move(b, c, keys)
    ensures b.alive && b.width <= c.width as real ==> InCanvas(r, c)
    ensures r.color == b.color && r.oldColor == b.oldColor && r.alive == b.alive
    ensures r.width == b.width && r.y == b.y
  {
    if b.alive then Move(b, c, keys) else b
  }

  /** However the keys are held over any number of ticks, a basket that
      fits on the canvas stays on it. */
  lemma {:induction false} StaysInCanvas(b: Basket, c: Canvas, ticks: seq<Keys>)
    requires b.width <= c.width as real && InCanvas(b, c)
    ensures InCanvas(UpdateN(b, c, ticks), c)
    ensures UpdateN(b, c, ticks).width == b.width
    decreases |ticks|
  {
    if |ticks| > 0 {
      StaysInCanvas(Update(b, c, ticks[0]), c, ticks[1..]);
    }
  }

  /** The basket after one update per element of `ticks`. */
  function UpdateN(b: Basket, c: Canvas, ticks: seq<Keys>): Basket
    decreases |ticks|
  {
    if |ticks| == 0 then b else UpdateN(Update(b, c, ticks[0]), c, ticks[1..])
  }

}

=== FILE: block.dfy ===
/** A falling `Block`: built from an attribute template whose unset
    position and colour are filled in at construction, then moved down by
    a constant speed while it is alive. */
module Blocks {
  import opened Optional
  import opened Dice
  import opened Colors
  import opened Screen

  /** The attributes a block is built from; `None` is an attribute the
      template leaves unset. */
  datatype BlockData = BlockData(
    x: Option<real>, y: Option<real>,
    width: int, height: int,
    ySpeed: real,
    color: Option<Color>)

  /** `blockData`: a 10 by 10 block falling 1 pixel per tick, with no
      position and no colour. */
  const DefaultBlockData: BlockData :=
    BlockData(None, None, 10, 10, 1.0, None)

  datatype Block = Block(
    x: real, y: real,
    width: int, height: int,
    ySpeed: real,
    color: Color,
    strength: int,   // points on a catch, damage on a miss; 0 once spent
    alive: bool)

  /** `Math.round(rand(0, canvas.width - width))`: a spawn column. */
  function SpawnX(c: Canvas, width: int, u: real): (x: int)
    requires IsDraw(u)
    ensures width <= c.width ==> 0 <= x <= c.width - width
  {
    var p := Rand(u, 0.0, (c.width - width) as real);
    Round(p)
  }

  /** `a / m` is a draw when `0 <= a < m`. */
  lemma Quotient(a: real, m: real)
    requires 0.0 <= a < m
    ensures IsDraw(a / m) && (a / m) * m == a
  {
  }

  /** Every whole column in range is a possible spawn column. */
  lemma SpawnXReaches(c: Canvas, width: int, k: int)
    requires 0 <= k <= c.width - width
    ensures exists u :: IsDraw(u) && SpawnX(c, width, u) == k
  {
    var m := (c.width - width) as real;
    if m == 0.0 {
      assert SpawnX(c, width, 0.0) == 0;
    } else {
      var v := if k as real < m then k as real else k as real - 0.25;
      Quotient(v, m);
      var u := v / m;
      assert SpawnX(c, width, u) == k;
    }
  }

  /** `Block.initPosition`: only when neither coordinate is set, picks a
      spawn column and puts the block just above the top edge. */
  function InitPosition(d: BlockData, c: Canvas, u: real): (r: BlockData)
    requires IsDraw(u)
    ensures d.x.Some? || d.y.Some? ==> r == d
    ensures d.x.None? && d.y.None? ==>
              && r == d.(x := r.x, y := r.y)
              && r.x == Some(SpawnX(c, d.width, u) as real)
              && r.y == Some(-d.height as real)
  {
    if d.x.Some? || d.y.Some? then d
    else d.(x := Some(SpawnX(c, d.width, u) as real), y := Some((0 - d.height) as real))
  }

  /** `Block.initColor`: only when no colour is set, draws one from the
      palette. */
  function InitColor(d: BlockData, u: real): (r: BlockData)
    requires IsDraw(u)
    ensures d.color.Some? ==> r == d
    ensures d.color.None? ==> r == d.(color := Some(ColorAt(u)))
  {
    if d.color.Some? then d else d.(color := Some(ColorAt(u)))
  }

  /** `new Block(data)`: copies the template, marks the block alive and
      fills in position and colour. `strength`, which the template never
      sets, is supplied here. `None` is a block left with an undefined
      coordinate (a template that sets exactly one of the two). */
  function NewBlock(d: BlockData, strength: int, c: Canvas, uX: real, uColor: real): (r: Option<Block>)
    requires IsDraw(uX) && IsDraw(uColor)
    ensures r.Some? <==> (d.x.Some? <==> d.y.Some?)
    ensures r.Some? ==> r.value.alive && r.value.strength == strength
    ensures r.Some? ==> r.value.width == d.width && r.value.height == d.height && r.value.ySpeed == d.ySpeed
    ensures r.Some? && d.x.Some? ==> r.value.x == d.x.value && r.value.y == d.y.value
    ensures r.Some? && d.x.None? ==>
              && r.value.y == -d.height as real
              && r.value.x.Floor as real == r.value.x
              && (d.width <= c.width ==> 0.0 <= r.value.x <= (c.width - d.width) as real)
    ensures r.Some? && d.color.Some? ==> r.value.color == d.color.value
    ensures r.Some? && d.color.None? ==> r.value.color == ColorAt(uColor)
  {
    var e := InitColor(InitPosition(d, c, uX), uColor);
    if e.x.Some? && e.y.Some? then
      Some(Block(e.x.value, e.y.value, e.width, e.height, e.ySpeed, e.color.value, strength, true))
    else None
  }

  /** `Block.move`: a constant fall. */
  function Move(b: Block): (r: Block)
    ensures r == b.(y := r.y)
    ensures r.y - b.y == b.ySpeed
  {
    b.(y := b.y + b.ySpeed)
  }

  /** `Movable.update` for a block: moves only while alive. */
  function Update(b: Block): (r: Block)
    ensures !b.alive ==> r == b
    ensures b.alive ==> r == Move(b)
  {
    if b.alive then Move(b) else b
  }

  /** The block after `n` updates. */
  function UpdateN(b: Block, n: nat): Block
    decreases n
  {
    if n == 0 then b else UpdateN(Update(b), n - 1)
  }

  /** A live block falls `n * ySpeed` in `n` updates and nothing else about
      it changes; a dead block does not move at all. */
  lemma {:induction false} Falls(b: Block, n: nat)
    ensures b.alive ==> UpdateN(b, n) == b.(y := b.y + n as real * b.ySpeed)
    ensures !b.alive ==> UpdateN(b, n) == b
    decreases n
  {
    if n > 0 {
      Falls(Update(b), n - 1);
      assert n as real * b.ySpeed == (n - 1) as real * b.ySpeed + b.ySpeed;
    }
  }

}

=== FILE: catcher.dfy ===
/** `RGBCatcher`: the session state of a game in progress and the per-tick
    rules of the playing state: spawning blocks against the level quota,
    level and game resets, and the tick that moves the basket and resolves
    every block. */
module Catcher {
  import opened Dice
  import opened Colors
  import opened Countable
  import opened Blocks
  import opened Collision
  import opened Screen
  import Baskets

  /** Blocks to spawn per level: level `n` spawns `4 * n` blocks. */
  const BlocksPerLevel: int := 4

  datatype Game = Game(
    basket: Baskets.Basket,
    health: Counter,
    score: Counter,
    blocks: seq<Block>,     // every block of this level, dead ones included
    blocksSpawned: int,
    blocksOnScreen: int,
    blocksSpawnSec: real,   // seconds between spawns
    level: int,
    startTime: int)         // milliseconds; when the spawn timer last fired

  /** The chance outcomes one tick may use: the two draws that place and
      colour a new block, the strength it is given, and the colour the
      basket's reroll loop exits with should the level end. */
  datatype Rolls = Rolls(spawnX: real, spawnColor: real, strength: int, pick: Color)

  predicate ValidRolls(g: Game, rolls: Rolls) {
    IsDraw(rolls.spawnX) && IsDraw(rolls.spawnColor) && rolls.pick != g.basket.oldColor
  }

  /** Blocks this level spawns in all. */
  function Quota(g: Game): int {
    BlocksPerLevel * g.level
  }

  /** The session invariant: the on-screen count is the number of live
      blocks, every spawned block is kept, no more than the quota is
      spawned, and the basket's previous colour is its current one. */
  predicate Inv(g: Game) {
    && g.level >= 1
    && g.blocksOnScreen == CountAlive(g.blocks)
    && g.blocksSpawned == |g.blocks| <= Quota(g)
    && g.basket.color == g.basket.oldColor
  }

  /** `new Block(blockData)` with the game's draws. */
  function SpawnBlock(c: Canvas, rolls: Rolls): (b: Block)
    requires IsDraw(rolls.spawnX) && IsDraw(rolls.spawnColor)
    ensures b.alive && b.strength == rolls.strength && b.color == ColorAt(rolls.spawnColor)
    ensures b.width == 10 && b.height == 10 && b.ySpeed == 1.0 && b.y == -10.0
    ensures b.x.Floor as real == b.x
    ensures 10 <= c.width ==> 0.0 <= b.x <= (c.width - 10) as real
  {
    NewBlock(DefaultBlockData, rolls.strength, c, rolls.spawnX, rolls.spawnColor).value
  }

  /** The quota is used up and every block has been resolved. */
  predicate LevelComplete(g: Game) {
    g.blocksSpawned == Quota(g) && g.blocksOnScreen == 0
  }

  /** `addBlock()`: below the quota, spawns one block and counts it as
      spawned and on screen; at the quota, changes nothing and answers
      `false` once no block is left on screen. */
  function AddBlock(g: Game, c: Canvas, rolls: Rolls): (r: (Game, bool))
    requires IsDraw(rolls.spawnX) && IsDraw(rolls.spawnColor)
    ensures !r.1 <==> LevelComplete(g)
    ensures g.blocksSpawned != Quota(g) ==>
              && |r.0.blocks| == |g.blocks| + 1
              && r.0.blocks[..|g.blocks|] == g.blocks
              && r.0.blocks[|g.blocks|] == SpawnBlock(c, rolls)
              && r.0.blocksSpawned == g.blocksSpawned + 1
              && r.0.blocksOnScreen == g.blocksOnScreen + 1
              && r.0 == g.(blocks := r.0.blocks, blocksSpawned := r.0.blocksSpawned,
                           blocksOnScreen := r.0.blocksOnScreen)
    ensures g.blocksSpawned == Quota(g) ==> r.0 == g
    ensures Inv(g) ==> Inv(r.0)
  {
    if g.blocksSpawned != Quota(g) then
      var b := SpawnBlock(c, rolls);
      var g1 := g.(blocks := g.blocks + [b],
                   blocksSpawned := g.blocksSpawned + 1,
                   blocksOnScreen := g.blocksOnScreen + 1);
      assert g1.blocks[..|g.blocks|] == g.blocks;
      CountAliveAppend(g.blocks, b);
      (g1, true)
    else (g, g.blocksOnScreen != 0)
  }

  /** `resetLevel()`: resets the basket and empties the level; the level
      number, the spawn interval, score and health are kept. */
  function ResetLevel(g: Game, c: Canvas, pick: Color): (r: Game)
    requires pick != g.basket.oldColor
    ensures r.blocks == [] && r.blocksSpawned == 0 && r.blocksOnScreen == 0
    ensures r.basket == Baskets.Reset(g.basket, c, pick)
    ensures r.level == g.level && r.blocksSpawnSec == g.blocksSpawnSec && r.startTime == g.startTime
    ensures r.health == g.health && r.score == g.score
    ensures g.level >= 1 ==> Inv(r)
  {
    g.(basket := Baskets.Reset(g.basket, c, pick), blocks := [], blocksSpawned := 0, blocksOnScreen := 0)
  }

  /** `resetGame()`: a fresh session at level 1 with full health, no
      points, a 2-second spawn interval and the spawn timer started now. */
  function ResetGame(g: Game, c: Canvas, now: int, pick: Color): (r: Game)
    requires pick != g.basket.oldColor
    ensures r.basket == Baskets.Reset(g.basket, c, pick)
    ensures r.health.value == r.health.target == 100 && r.health.speed == g.health.speed
    ensures r.score.value == r.score.target == 0 && r.score.speed == g.score.speed
    ensures r.blocks == [] && r.blocksSpawned == 0 && r.blocksOnScreen == 0
    ensures r.blocksSpawnSec == 2.0 && r.level == 1 && r.startTime == now
    ensures Inv(r)
  {
    Game(Baskets.Reset(g.basket, c, pick), HealthReset(g.health), ScoreReset(g.score),
         [], 0, 0, 2.0, 1, now)
  }

  /** The game as `run()` leaves it before the first reset. */
  function NewGame(): (g: Game)
    ensures g.basket.color == g.basket.oldColor && g.blocks == []
  {
    Game(Baskets.NewBasket(), NewCounter(), NewCounter(), [], 0, 0, 0.0, 0, 0)
  }

  /** The spawn timer has run for at least one spawn interval. */
  predicate SpawnDue(g: Game, frameTime: int) {
    frameTime as real >= g.startTime as real + g.blocksSpawnSec * 1000.0
  }

  /** The spawn-timer branch of `gameLoop()`: when the timer is due, adds a
      block or, if the level is complete, shortens the spawn interval by 1%
      and resets the level; either way the timer restarts at this frame. */
  function SpawnPhase(g: Game, c: Canvas, frameTime: int, rolls: Rolls): (r: Game)
    requires ValidRolls(g, rolls)
    ensures !SpawnDue(g, frameTime) ==> r == g
    ensures SpawnDue(g, frameTime) ==> r.startTime == frameTime
    ensures r.health == g.health && r.score == g.score
    ensures SpawnDue(g, frameTime) && !LevelComplete(g) ==>
              r == AddBlock(g, c, rolls).0.(startTime := frameTime)
    ensures SpawnDue(g, frameTime) && LevelComplete(g) ==>
              && r.blocksSpawnSec == g.blocksSpawnSec * 0.99
              && r.blocks == [] && r.blocksSpawned == 0 && r.blocksOnScreen == 0
              && r.level == g.level && r.health == g.health && r.score == g.score
              && r.basket == Baskets.Reset(g.basket, c, rolls.pick)
    ensures !(SpawnDue(g, frameTime) && LevelComplete(g)) ==>
              && |g.blocks| <= |r.blocks| <= |g.blocks| + 1
              && r.blocks[..|g.blocks|] == g.blocks
    ensures Inv(g) ==> Inv(r)
  {
    if SpawnDue(g, frameTime) then
      var (g1, more) := AddBlock(g, c, rolls);
      var g2 := if !more then ResetLevel(g1.(blocksSpawnSec := g1.blocksSpawnSec * 0.99), c, rolls.pick)
                else g1;
      g2.(startTime := frameTime)
    else g
  }

  /** One `gameLoop()` tick of the playing state: the spawn timer, then the
      basket's move, then every block's move and collision check. The tick
      keeps the session invariant and the level number; unless it
      completes the level it removes no block, adds at most one, revives
      no dead block and leaves dead blocks as they were; and a live basket
      that fits on the canvas ends the tick on it. */
  function Tick(g: Game, c: Canvas, frameTime: int, keys: Baskets.Keys, rolls: Rolls): (r: Game)
    requires ValidRolls(g, rolls)
    ensures Inv(g) ==> Inv(r)
    ensures r.level == g.level
    // the spawn branch's timer, interval, spawn count and block list carry
    // through, and every block it leaves is then moved and checked
    ensures var g1 := SpawnPhase(g, c, frameTime, rolls);
            && r.startTime == g1.startTime
            && r.blocksSpawnSec == g1.blocksSpawnSec
            && r.blocksSpawned == g1.blocksSpawned
            && |r.blocks| == |g1.blocks|
            && forall i :: 0 <= i < |g1.blocks| ==> r.blocks[i] == Step(g1.blocks[i], r.basket, c, NoTally).0
    ensures !(SpawnDue(g, frameTime) && LevelComplete(g)) ==>
              && |g.blocks| <= |r.blocks| <= |g.blocks| + 1
              && (forall i :: 0 <= i < |g.blocks| ==> (r.blocks[i].alive ==> g.blocks[i].alive))
              && (forall i :: 0 <= i < |g.blocks| ==> (!g.blocks[i].alive ==> r.blocks[i] == g.blocks[i]))
    ensures !(SpawnDue(g, frameTime) && LevelComplete(g)) ==>
              forall i :: 0 <= i < |g.blocks| && g.blocks[i].alive ==>
                r.blocks[i].y == g.blocks[i].y + g.blocks[i].ySpeed
    ensures g.basket.alive && g.basket.width <= c.width as real ==> Baskets.InCanvas(r.basket, c)
    // the basket follows the keys, after a reset when the level completes
    ensures !(SpawnDue(g, frameTime) && LevelComplete(g)) ==>
              r.basket == Baskets.Update(g.basket, c, keys)
    ensures SpawnDue(g, frameTime) && LevelComplete(g) ==>
              r.basket == Baskets.Update(Baskets.Reset(g.basket, c, rolls.pick), c, keys)
    // every kept block is checked against the moved basket
    ensures !(SpawnDue(g, frameTime) && LevelComplete(g)) ==>
              forall i :: 0 <= i < |g.blocks| ==>
                r.blocks[i] == Step(g.blocks[i], r.basket, c, NoTally).0
    // health and score targets move only by the blocks' collision outcomes,
    // by no more than the strength the blocks give up, and are not redrawn
    ensures r.health == Change(g.health, TotalDelta(SpawnPhase(g, c, frameTime, rolls).blocks, r.basket, c).health)
    ensures r.score == Change(g.score, TotalDelta(SpawnPhase(g, c, frameTime, rolls).blocks, r.basket, c).score)
    ensures Effect(Tally(g.health, g.score, 0), Tally(r.health, r.score, 0)) + TotalBudget(r.blocks)
            <= TotalBudget(g.blocks) + Abs(rolls.strength)
  {
    var g1 := SpawnPhase(g, c, frameTime, rolls);
    TotalBudgetAppendBound(g, g1, c, frameTime, rolls);
    assert !(SpawnDue(g, frameTime) && LevelComplete(g)) ==>
             forall i :: 0 <= i < |g.blocks| ==> g1.blocks[i] == g.blocks[i];
    var basket := Baskets.Update(g1.basket, c, keys);
    var t0 := Tally(g1.health, g1.score, g1.blocksOnScreen);
    var (bs, t) := UpdateBlocks(g1.blocks, basket, c, t0);
    assert Effect(Tally(g.health, g.score, 0), Tally(t.health, t.score, 0)) == Effect(t0, t);
    g1.(basket := basket, blocks := bs, health := t.health, score := t.score, blocksOnScreen := t.onScreen)
  }

  /** Appending a block adds at most its strength to the total budget. */
  lemma {:induction false} TotalBudgetAppend(bs: seq<Block>, b: Block)
    ensures TotalBudget(bs + [b]) == TotalBudget(bs) + Budget(b)
    decreases |bs|
  {
    if |bs| > 0 {
      assert (bs + [b])[1..] == bs[1..] + [b];
      TotalBudgetAppend(bs[1..], b);
    }
  }

  /** The spawn branch adds at most one new block's strength to what the
      blocks can still apply. */
  lemma TotalBudgetAppendBound(g: Game, g1: Game, c: Canvas, frameTime: int, rolls: Rolls)
    requires ValidRolls(g, rolls) && g1 == SpawnPhase(g, c, frameTime, rolls)
    ensures TotalBudget(g1.blocks) <= TotalBudget(g.blocks) + Abs(rolls.strength)
  {
    if SpawnDue(g, frameTime) && !LevelComplete(g) && g.blocksSpawned != Quota(g) {
      assert g1.blocks == g.blocks + [SpawnBlock(c, rolls)];
      TotalBudgetAppend(g.blocks, SpawnBlock(c, rolls));
    }
  }

  /** Appending one block adds one to the live count if it is alive. */
  lemma {:induction false} CountAliveAppend(bs: seq<Block>, b: Block)
    ensures CountAlive(bs + [b]) == CountAlive(bs) + (if b.alive then 1 else 0)
    decreases |bs|
  {
    if |bs| > 0 {
      assert (bs + [b])[1..] == bs[1..] + [b];
      CountAliveAppend(bs[1..], b);
    }
  }

  /** Level 1 with all four blocks spawned and resolved: the next due
      spawn check completes the level, shortens the interval from 2 to
      1.98 seconds and empties the level, and the level number stays 1. */
  lemma LevelCompleteScenario(g: Game, c: Canvas, rolls: Rolls)
    requires ValidRolls(g, rolls)
    requires g.level == 1 && g.blocksSpawned == 4 && g.blocksOnScreen == 0
    requires g.blocksSpawnSec == 2.0 && g.startTime == 0
    ensures var r := SpawnPhase(g, c, 2000, rolls);
            && r.blocksSpawnSec == 1.98 && r.level == 1
            && r.blocks == [] && r.blocksSpawned == 0 && r.startTime == 2000
  {
  }

}

=== FILE: collision.dfy ===
/** `checkCollision` and `updateBlocks`: how each block, once it reaches
    the basket's line, is caught or missed, and what that does to the
    health and score targets and to the count of blocks on screen. */
module Collision {
  import opened Countable
  import opened Colors
  import opened Blocks
  import opened Screen
  import Baskets

  /** The counters a collision check updates. */
  datatype Tally = Tally(health: Counter, score: Counter, onScreen: int)

  /** The block's bottom edge is still above the basket's top edge. */
  predicate Above(b: Block, basket: Baskets.Basket) {
    b.y + b.height as real < basket.y
  }

  /** The block's horizontal span lies within the basket's. */
  predicate Within(b: Block, basket: Baskets.Basket) {
    b.x >= basket.x && b.x + b.width as real <= basket.x + basket.width
  }

  /** A missed block that still owes its damage: the basket's colour and
      positive strength. */
  predicate OwesPenalty(b: Block, basket: Baskets.Basket) {
    b.color == basket.color && b.strength > 0
  }

  /** What a block can still do to the targets: its strength while it is
      alive, nothing once it is dead. */
  function Budget(b: Block): nat {
    if b.alive then Abs(b.strength) else 0
  }

  /** How far the health and score targets moved from `t` to `t'`. */
  function Effect(t: Tally, t': Tally): nat {
    Abs(t'.health.target - t.health.target) + Abs(t'.score.target - t.score.target)
  }

  /** `checkCollision(block)`. */
  function CheckCollision(b: Block, basket: Baskets.Basket, c: Canvas, t: Tally): (r: (Block, Tally))
    // a dead block, or one not yet at the basket's line, changes nothing
    ensures !b.alive || Above(b, basket) ==> r == (b, t)
    // catch: the block dies, and exactly one of score and health moves
    ensures b.alive && !Above(b, basket) && Within(b, basket) ==>
              && r.0 == b.(alive := false)
              && r.1.onScreen == t.onScreen - 1
              && (b.color == basket.color ==>
                    r.1.score == Change(t.score, b.strength) && r.1.health == t.health)
              && (b.color != basket.color ==>
                    r.1.health == Change(t.health, -b.strength) && r.1.score == t.score)
    // miss: the score never moves; the damage is taken once, then the
    // strength is spent; the block dies once it is below the canvas
    ensures b.alive && !Above(b, basket) && !Within(b, basket) ==>
              && r.1.score == t.score
              && r.0 == b.(strength := r.0.strength, alive := r.0.alive)
              && (OwesPenalty(b, basket) ==>
                    r.1.health == Change(t.health, -b.strength) && r.0.strength == 0)
              && (!OwesPenalty(b, basket) ==>
                    r.1.health == t.health && r.0.strength == b.strength)
              && (r.0.alive <==> b.y <= c.height as real)
              && r.1.onScreen == t.onScreen - (if r.0.alive then 0 else 1)
    // in every case: a dead block stays dead, the count drops exactly when
    // the block dies, and the targets move by no more than the block's budget
    ensures r.0.alive ==> b.alive
    ensures t.onScreen - r.1.onScreen == (if b.alive && !r.0.alive then 1 else 0)
    ensures Effect(t, r.1) + Budget(r.0) <= Budget(b)
    ensures r.1.health.value == t.health.value && r.1.score.value == t.score.value
  {
    if !b.alive then (b, t)
    else if Above(b, basket) then (b, t)
    else if Within(b, basket) then
      var b1 := b.(alive := false);
      var t1 := t.(onScreen := t.onScreen - 1);
      if b.color == basket.color then (b1, t1.(score := Change(t1.score, b.strength)))
      else (b1, t1.(health := Change(t1.health, -b.strength)))
    else
      var (b1, t1) :=
        if OwesPenalty(b, basket)
        then (b.(strength := 0), t.(health := Change(t.health, -b.strength)))
        else (b, t);
      if b1.alive && b1.y > c.height as real
      then (b1.(alive := false), t1.(onScreen := t1.onScreen - 1))
      else (b1, t1)
  }

  /** One iteration of `updateBlocks`: `block.update()` then
      `checkCollision(block)`. */
  function Step(b: Block, basket: Baskets.Basket, c: Canvas, t: Tally): (r: (Block, Tally))
    ensures r.0.alive ==> b.alive
    ensures !b.alive ==> r == (b, t)
    ensures b.alive ==> r.0 == Update(b).(strength := r.0.strength, alive := r.0.alive)
    ensures t.onScreen - r.1.onScreen == (if b.alive && !r.0.alive then 1 else 0)
    ensures Effect(t, r.1) + Budget(r.0) <= Budget(b)
    ensures b.alive ==> r == CheckCollision(Blocks.Move(b), basket, c, t)
  {
    CheckCollision(Update(b), basket, c, t)
  }

  /** Offsets a step applies to the health target, the score target and
      the on-screen count. */
  datatype Delta = Delta(health: int, score: int, onScreen: int)

  /** Counters at zero, for reading a step's offsets off its result. */
  const NoTally: Tally := Tally(Counter(0, 0, 0), Counter(0, 0, 0), 0)

  /** The counters `t` moved by the offsets `d`. */
  function Apply(t: Tally, d: Delta): Tally {
    Tally(Change(t.health, d.health), Change(t.score, d.score), t.onScreen + d.onScreen)
  }

  /** What one block's step does to the counters. */
  function BlockDelta(b: Block, basket: Baskets.Basket, c: Canvas): Delta {
    var t := Step(b, basket, c, NoTally).1;
    Delta(t.health.target, t.score.target, t.onScreen)
  }

  /** A step does the same to a block whatever the counters hold, and moves
      the counters by that block's own offsets. */
  lemma StepShift(b: Block, basket: Baskets.Basket, c: Canvas, t: Tally)
    ensures Step(b, basket, c, t)
            == (Step(b, basket, c, NoTally).0, Apply(t, BlockDelta(b, basket, c)))
  {
  }

  /** The offsets of all blocks' steps, added up. */
  function TotalDelta(bs: seq<Block>, basket: Baskets.Basket, c: Canvas): Delta
    decreases |bs|
  {
    if |bs| == 0 then Delta(0, 0, 0)
    else
      var d := BlockDelta(bs[0], basket, c);
      var e := TotalDelta(bs[1..], basket, c);
      Delta(d.health + e.health, d.score + e.score, d.onScreen + e.onScreen)
  }

  /** The strength all live blocks can still apply. */
  function TotalBudget(bs: seq<Block>): nat
    decreases |bs|
  {
    if |bs| == 0 then 0 else Budget(bs[0]) + TotalBudget(bs[1..])
  }

  /** Number of live blocks. */
  function CountAlive(bs: seq<Block>): nat
    decreases |bs|
  {
    if |bs| == 0 then 0 else (if bs[0].alive then 1 else 0) + CountAlive(bs[1..])
  }

  /** `updateBlocks()`: every block, in order, updated and checked against
      the basket. Each block ends as its own step leaves it, whatever the
      counters held; the counters move by the sum of the blocks' offsets.
      The difference between the on-screen count and the number of live
      blocks is the same before and after, so a count that is right stays
      right; and health and score move by no more than the strength the
      blocks give up. */
  function UpdateBlocks(bs: seq<Block>, basket: Baskets.Basket, c: Canvas, t: Tally): (r: (seq<Block>, Tally))
    ensures |r.0| == |bs|
    ensures forall i :: 0 <= i < |bs| ==> (r.0[i].alive ==> bs[i].alive)
    ensures forall i :: 0 <= i < |bs| ==> (!bs[i].alive ==> r.0[i] == bs[i])
    ensures forall i :: 0 <= i < |bs| && bs[i].alive ==>
              r.0[i] == Update(bs[i]).(strength := r.0[i].strength, alive := r.0[i].alive)
    ensures t.onScreen - CountAlive(bs) == r.1.onScreen - CountAlive(r.0)
    ensures forall i :: 0 <= i < |bs| ==> r.0[i] == Step(bs[i], basket, c, NoTally).0
    ensures r.1 == Apply(t, TotalDelta(bs, basket, c))
    ensures Effect(t, r.1) + TotalBudget(r.0) <= TotalBudget(bs)
    decreases |bs|
  {
    if |bs| == 0 then ([], t)
    else
      var (b1, t1) := Step(bs[0], basket, c, t);
      var (rest, t2) := UpdateBlocks(bs[1..], basket, c, t1);
      var out := [b1] + rest;
      assert out[1..] == rest;
      StepShift(bs[0], basket, c, t);
      assert forall i :: 0 < i < |bs| ==> bs[1..][i - 1] == bs[i];
      assert Effect(t, t2) <= Effect(t, t1) + Effect(t1, t2);
      (out, t2)
  }

  /** One block checked on successive ticks, the basket standing at
      `baskets[i]` on tick `i`. */
  function Run(b: Block, baskets: seq<Baskets.Basket>, c: Canvas, t: Tally): (Block, Tally)
    decreases |baskets|
  {
    if |baskets| == 0 then (b, t)
    else
      var (b1, t1) := Step(b, baskets[0], c, t);
      Run(b1, baskets[1..], c, t1)
  }

  /** Over its whole life, however the basket moves, a block moves the
      health and score targets by at most its strength in total. */
  lemma {:induction false} LifetimeEffect(b: Block, baskets: seq<Baskets.Basket>, c: Canvas, t: Tally)
    ensures Effect(t, Run(b, baskets, c, t).1) <= Budget(b)
    decreases |baskets|
  {
    if |baskets| > 0 {
      var (b1, t1) := Step(b, baskets[0], c, t);
      LifetimeEffect(b1, baskets[1..], c, t1);
      var t2 := Run(b1, baskets[1..], c, t1).1;
      assert Effect(t, t2) <= Effect(t, t1) + Effect(t1, t2);
    }
  }

  /** A missed block of the basket's colour costs its strength in health
      on the check that first sees the miss, and on no later check
      changes health or score again. */
  lemma MissPenalisedOnce(b: Block, basket: Baskets.Basket, c: Canvas, t: Tally,
                          later: seq<Baskets.Basket>)
    requires b.alive && !Above(b, basket) && !Within(b, basket) && OwesPenalty(b, basket)
    ensures var (b1, t1) := CheckCollision(b, basket, c, t);
            && t1.health.target == t.health.target - b.strength
            && t1.score == t.score
            && var t2 := Run(b1, later, c, t1).1;
               t2.health.target == t1.health.target && t2.score.target == t1.score.target
  {
    var (b1, t1) := CheckCollision(b, basket, c, t);
    LifetimeEffect(b1, later, c, t1);
  }

  /** A block that is dead or whose strength is spent never touches health
      or score again. */
  lemma SpentBlockInert(b: Block, baskets: seq<Baskets.Basket>, c: Canvas, t: Tally)
    requires !b.alive || b.strength == 0
    ensures Run(b, baskets, c, t).1.health.target == t.health.target
    ensures Run(b, baskets, c, t).1.score.target == t.score.target
  {
    LifetimeEffect(b, baskets, c, t);
  }

  /** A block dies at most once: once dead it stays dead and unchanged on
      every later tick, and the on-screen count drops by one over the
      whole run exactly when a live block ended up dead. */
  lemma {:induction false} DiesOnce(b: Block, baskets: seq<Baskets.Basket>, c: Canvas, t: Tally)
    ensures var r := Run(b, baskets, c, t);
            && (r.0.alive ==> b.alive)
            && (!b.alive ==> r.0 == b)
            && t.onScreen - r.1.onScreen == (if b.alive && !r.0.alive then 1 else 0)
    decreases |baskets|
  {
    if |baskets| > 0 {
      var (b1, t1) := Step(b, baskets[0], c, t);
      DiesOnce(b1, baskets[1..], c, t1);
    }
  }

  /** A 400 by 300 canvas, a red basket 30 wide at x = 185 on the bottom
      edge, and a red block of strength 5 at x = 190 one pixel above the
      basket's line: the tick that brings it down to the line catches it,
      scores 5 and takes it off the screen; a blue basket instead costs 5
      health. */
  lemma CatchScenario(t: Tally)
    ensures var basket := Baskets.Basket(185.0, 290.0, 30.0, 10.0, 1.1, Red, Red, true);
            var b := Block(190.0, 279.0, 10, 10, 1.0, Red, 5, true);
            var r := Step(b, basket, Canvas(400, 300), t);
            && !r.0.alive && r.1.onScreen == t.onScreen - 1
            && r.1.score.target == t.score.target + 5 && r.1.health == t.health
    ensures var basket := Baskets.Basket(185.0, 290.0, 30.0, 10.0, 1.1, Blue, Blue, true);
            var b := Block(190.0, 279.0, 10, 10, 1.0, Red, 5, true);
            var r := Step(b, basket, Canvas(400, 300), t);
            && !r.0.alive && r.1.onScreen == t.onScreen - 1
            && r.1.health.target == t.health.target - 5 && r.1.score == t.score
  {
  }

}

=== FILE: colors.dfy ===
/** The colour palette `RGBCatcher.colors` and the two ways the game draws
    a colour from it: a single draw (block colours) and the basket's
    reroll loop. */
module Colors {
  import opened Optional
  import opened Dice

  /** `'#f00'`, `'#0f0'` and `'#00f'`. */
  datatype Color = Red | Green | Blue

  /** `RGBCatcher.colors`, in source order (the order fixes which draws
      pick which colour). */
  const Palette: seq<Color> := [Red, Green, Blue]

  /** `RGBCatcher.colors[Math.round(rand(0, colors.length - 1))]`.
      Rounding makes the middle colour twice as likely as either end:
      the draw picks red below 0.25, green below 0.75 and blue above. */
  function ColorAt(u: real): (c: Color)
    requires IsDraw(u)
    ensures c in Palette
    ensures c == Red <==> u < 0.25
    ensures c == Green <==> 0.25 <= u < 0.75
    ensures c == Blue <==> 0.75 <= u
  {
    var x := Rand(u, 0.0, (|Palette| - 1) as real);
    assert x == u * 2.0;
    var i := Round(x);
    assert 0 <= i < |Palette|;
    Palette[i]
  }

  /** A draw that picks `c`. */
  function DrawFor(c: Color): (u: real)
    ensures IsDraw(u) && ColorAt(u) == c
  {
    match c
    case Red => 0.0
    case Green => 0.5
    case Blue => 0.75
  }

  /** The loop `while (color == oldColor) color = <draw>;` of
      `Basket.reset`, run against a finite supply of draws. `Some(c)` is
      the colour the loop exits with; `None` means the supply ran out
      while the loop was still going. */
  function Reroll(color: Color, oldColor: Color, draws: seq<real>): (r: Option<Color>)
    requires AllDraws(draws)
    ensures r.Some? ==> r.value != oldColor
    ensures color != oldColor ==> r == Some(color)
    ensures r.None? <==>
              color == oldColor && forall i :: 0 <= i < |draws| ==> ColorAt(draws[i]) == oldColor
    ensures r.Some? && color == oldColor ==>
              exists i :: 0 <= i < |draws| && r.value == ColorAt(draws[i])
                          && forall j :: 0 <= j < i ==> ColorAt(draws[j]) == oldColor
    decreases |draws|
  {
    if color != oldColor then Some(color)
    else if |draws| == 0 then None
    else
      var r := Reroll(ColorAt(draws[0]), oldColor, draws[1..]);
      assert forall i :: 0 <= i < |draws| - 1 ==> draws[1..][i] == draws[i + 1];
      r
  }

  /** Every colour other than the old one is a possible exit value of the
      reroll loop, reached on the first draw. */
  lemma RerollReaches(oldColor: Color, c: Color)
    requires c != oldColor
    ensures exists draws :: AllDraws(draws) && Reroll(oldColor, oldColor, draws) == Some(c)
  {
    var draws := [DrawFor(c)];
    assert Reroll(oldColor, oldColor, draws) == Reroll(c, oldColor, []);
  }

}

=== FILE: countable.dfy ===
/** `Countable` and its two kinds, `Health` and `Score`: a displayed value
    that eases towards a target value by a fixed step per animation tick. */
module Countable {
  import opened Optional

  /** `value` is what is displayed, `target` what it is heading for and
      `speed` the size of one animation step. */
  datatype Counter = Counter(value: int, target: int, speed: int)

  /** Absolute value. */
  function Abs(x: int): nat {
    if x < 0 then -x else x
  }

  /** Distance between the displayed value and the target. */
  function Dist(c: Counter): nat {
    Abs(c.value - c.target)
  }

  /** `y` lies between `x` and `z`, whichever way round they are. */
  predicate Between(x: int, y: int, z: int) {
    (x <= y <= z) || (z <= y <= x)
  }

  /** A fresh `Countable`: nothing displayed, nothing to reach, step 2. */
  function NewCounter(): (c: Counter)
    ensures c.speed > 0 && Dist(c) == 0
  {
    Counter(0, 0, 2)
  }

  /** `change(amount)`: moves the target by `amount` and leaves the
      displayed value alone. */
  function Change(c: Counter, amount: int): (r: Counter)
    ensures r.value == c.value && r.speed == c.speed
    ensures r.target - c.target == amount
  {
    c.(target := c.target + amount)
  }

  /** Two changes add up to one change by their sum. */
  lemma ChangesCompose(c: Counter, a: int, b: int)
    ensures Change(Change(c, a), b) == Change(c, a + b)
  {
  }

  /** `move()`: one animation step. Snaps onto the target when it is
      closer than one step, otherwise moves exactly one step towards it. */
  function Move(c: Counter): (r: Counter)
    ensures r.target == c.target && r.speed == c.speed
    ensures Dist(c) < c.speed ==> Dist(r) == 0
    ensures c.speed > 0 ==> Between(c.value, r.value, c.target)
    ensures c.speed > 0 && Dist(c) >= c.speed ==> Dist(r) == Dist(c) - c.speed
  {
    if Dist(c) < c.speed then c.(value := c.target)
    else if c.target > c.value then c.(value := c.value + c.speed)
    else c.(value := c.value - c.speed)
  }

  /** `n` animation steps in a row. */
  function MoveN(c: Counter, n: nat): Counter
    decreases n
  {
    if n == 0 then c else MoveN(Move(c), n - 1)
  }

  /** After `n` steps the distance has shrunk by `n` steps' worth, and never
      below zero; the target and speed are untouched. */
  lemma {:induction false} MoveNDist(c: Counter, n: nat)
    requires c.speed > 0
    ensures MoveN(c, n).target == c.target && MoveN(c, n).speed == c.speed
    ensures Dist(MoveN(c, n)) == if n * c.speed >= Dist(c) then 0 else Dist(c) - n * c.speed
    ensures Between(c.value, MoveN(c, n).value, c.target)
    decreases n
  {
    if n > 0 {
      var c1 := Move(c);
      MoveNDist(c1, n - 1);
      assert n * c.speed == (n - 1) * c.speed + c.speed;
    }
  }

  /** The easing reaches the target after exactly `ceil(Dist / speed)`
      steps: the displayed value equals the target after `n` steps iff
      `n` steps cover the distance. */
  lemma Converges(c: Counter, n: nat)
    requires c.speed > 0
    ensures MoveN(c, n).value == c.target <==> n * c.speed >= Dist(c)
  {
    MoveNDist(c, n);
  }

  /** A settled counter stays settled. */
  lemma SettledIsFixed(c: Counter)
    requires c.speed > 0 && c.value == c.target
    ensures Move(c) == c
  {
  }

  /** `Health.reset()`: full health, already displayed. */
  function HealthReset(c: Counter): (r: Counter)
    ensures r.speed == c.speed
    ensures r.value == r.target == 100
  {
    c.(value := 100, target := 100)
  }

  /** `Score.reset()`: no points, already displayed. */
  function ScoreReset(c: Counter): (r: Counter)
    ensures r.speed == c.speed
    ensures r.value == r.target == 0
  {
    c.(value := 0, target := 0)
  }

  /** Colour bands of the health bar. */
  datatype Band = Safe | Warning | Danger

  /** The bar colour chosen by `Health.draw`: `None` when the value is
      negative, where none of the three branches applies. */
  function HealthBand(value: int): (r: Option<Band>)
    ensures r.None? <==> value < 0
    ensures r == Some(Safe) <==> value >= 50
    ensures r == Some(Warning) <==> 25 <= value < 50
    ensures r == Some(Danger) <==> 0 <= value < 25
  {
    if value >= 50 then Some(Safe)
    else if value >= 25 then Some(Warning)
    else if value >= 0 then Some(Danger)
    else None
  }

  /** Severity of a band: higher is worse. */
  function Severity(b: Option<Band>): nat {
    match b
    case Some(Safe) => 0
    case Some(Warning) => 1
    case Some(Danger) => 2
    case None => 3
  }

  /** Less health never shows a safer band. */
  lemma BandMonotone(v: int, w: int)
    requires v <= w
    ensures Severity(HealthBand(w)) <= Severity(HealthBand(v))
  {
  }
}

=== FILE: dice.dfy ===
/** The game's only source of chance: `rand(min, max)` built on
    `Math.random()`, and `Math.round`. A value of `Math.random()` is
    modelled as a real parameter in [0, 1) chosen by the caller. */
module Dice {

  /** A possible value of `Math.random()`. */
  predicate IsDraw(u: real) {
    0.0 <= u < 1.0
  }

  /** Every element of `draws` is a possible value of `Math.random()`. */
  predicate AllDraws(draws: seq<real>) {
    forall i :: 0 <= i < |draws| ==> IsDraw(draws[i])
  }

  /** `rand(min, max)`: scales a draw onto the half-open interval from
      `min` towards `max`. */
  function Rand(u: real, min: real, max: real): (r: real)
    requires IsDraw(u)
    ensures min <= max ==> min <= r <= max
    ensures min < max ==> r < max
    ensures min == max ==> r == min
  {
    var m := max - min;
    ScaleBounds(u, m);
    var p := u * m;
    p + min
  }

  /** `u * m` stays inside [0, m), and is 0 when `m` is. */
  lemma ScaleBounds(u: real, m: real)
    requires IsDraw(u)
    ensures m >= 0.0 ==> 0.0 <= u * m <= m
    ensures m > 0.0 ==> u * m < m
  {
  }

  /** `Math.round`: the nearest integer, halves rounded up. */
  function Round(x: real): (r: int)
    ensures x - 0.5 < r as real <= x + 0.5
  {
    (x + 0.5).Floor
  }

}

=== FILE: optional.dfy ===
/** An attribute that may be unset: the model of a JavaScript property
    that still holds `undefined`. */
module Optional {

  datatype Option<+T> = None | Some(value: T)

}

=== FILE: screen.dfy ===
/** The canvas the game is drawn on. Its size is read afresh by every step
    that uses it. */
module Screen {

  datatype Canvas = Canvas(width: int, height: int)

}
